=== FILE: README.md ===
# cs-flash-cards: a Dafny model of the card store and its handlers

This project models the core of a spaced-repetition flash-card backend
written in Go. It covers the `CardModel` queries over the `cards` table and
the HTTP handlers of `/v1/cards`. The model proves what those queries and
handlers promise.

- **Card** (`card.dfy`, module `Cards`): the card record and `ValidateCard`.
  A card needs a title, content, and between 1 and 5 tags. Go's nil tag
  slice is kept distinct from an empty one.
- **Code snippet** (`snippet.dfy`, module `Snippets`): the `code_snippet`
  column and `CodeSnippet.Scan`. The text `null` clears the snippet. Any
  other value must be bytes holding a JSON object.
- **Store** (`store.dfy`, module `CardStore`): the table is a map from id to
  row, plus the next value of the id sequence. Covers `Insert`, `Get`,
  `Update` and `Delete`, `GetReviewCards` (cards whose review date is at
  or before midnight at the start of the current date) and `GetRandomCard`.
- **Ordering** (`ordering.dfy`, module `Ordering`) and **Listing**
  (`listing.dfy`, module `Listing`): the `GetAll` query. It applies the
  title and tag filters, orders by the sort column and then `created_at
  DESC`, takes the LIMIT/OFFSET window and reports the `count(*) OVER()`
  total. The sort is an insertion sort proved to produce an ordered
  permutation.
- **Schedule** (`schedule.dfy`, module `Schedule`): the review ladder of
  1, 3, 7, 14, 30 and 90 days. A reschedule picks the next rung from the
  whole days between the current review date and the creation date.
- **Handlers** (`handlers.dfy`, module `Handlers`): create, show, update,
  delete, list, list-for-review and random. Each handler maps model errors
  to 404 or 500, validates before writing, and applies partial-update
  bodies.

How the outside world is represented:

- **Time.** Instants are integers counting nanoseconds since Go's zero time.
  `time.Duration` is an int64, so `Sub` saturates to its range.
- **Parameters instead of hidden code.** Three functions are not part of
  this model, so each one is a parameter:
  - `calculateReviewDate`: a `ReviewDateFn`;
  - `json.Marshal` and `json.Unmarshal`: a `Codec`;
  - the full-text title match: a `TitleMatch`.
- **Database errors.** Each statement takes a `failure` argument: the error
  the database reports, or `None` when the statement runs.
- **Clocks.** The server clock (`now`), the database's `now()` (`dbNow`) and
  `CURRENT_DATE` (`today`, the midnight that starts the current date) are
  parameters too.

Two details of the code that a reader might expect to work differently:

- **Rung selection truncates.** The code converts the elapsed hours to an
  int, which truncates toward zero, rather than flooring the day
  difference. `Schedule.TruncationAgreesWithFloor` proves that flooring and
  truncating pick the same rung.
- **An empty table gives a 500 for a random card.** `GetRandomCard` returns
  `ErrRecordNotFound` for an empty table, but `showRandomCard` answers every
  error, that one included, with 500 (`Handlers.ShowRandomCard`).

Consequences of the code as written, proved as lemmas:

- **A first reschedule usually jumps to 90 days.** A new card's first review
  date is one day after the UTC midnight that starts the handler's current
  day. Suppose the database's `created_at` falls strictly after that
  midnight, on the same UTC day as the handler's clock. Then the review date
  is less than a whole day after `created_at`, and the first reschedule
  skips straight to 90 days. This is proved for a `calculateReviewDate` that
  adds whole days (`Schedule.FirstRescheduleJumpsToTop`). A card created
  exactly at midnight, or one whose `created_at` falls in the day before the
  midnight the handler's clock has already passed, climbs to 3 days instead
  (`Schedule.MidnightCardClimbs`, `Schedule.SkewedClocksClimb`).
- **A rescheduled card is listed a day late.** `CURRENT_DATE` is compared
  with a timestamp as midnight at the start of the date. A review date
  computed from `created_at` keeps its time of day, so when `created_at` is
  not a midnight the card is listed for review only from the midnight after
  its review date (`Handlers.RescheduledCardWaitsADay`, for a
  `calculateReviewDate` that adds whole days).
- **An update that loses a race gets a 500.** If the row disappears between
  the SELECT and the UPDATE of `updateCardHandler`, the response is a 500,
  not a 404 (`Handlers.UpdateOfVanishedCardIsServerError`).

## Model

| member | source | states |
|---|---|---|
| Snippets.Scan | internal/data/cards.go:37-61 | The text `null` gives the nil snippet, and nothing else does. A source that is not bytes fails the byte assertion. Bytes that do not decode fail with the decoder's error. JSON that is not an object fails the object assertion. A returned snippet is exactly the decoded object. |
| Snippets.ReadAfterWrite | internal/data/cards.go:32-61 | A snippet written through `Value` and read back through `Scan` is the same snippet exactly when the codec carries it through: its JSON text is not `null` and decodes back to the same object. A nil snippet is written as NULL and always reads back as nil. |
| Cards.TagErrors | internal/data/cards.go:66-68 | The three tag checks report nothing exactly when the tags are a non-nil slice of 1 to 5 items. Every error they report is about `tags`. A nil slice fails two checks. |
| Cards.ValidateCard | internal/data/cards.go:63-69 | A card has no errors exactly when it has a title, content, and a non-nil slice of 1 to 5 tags. Nil tags give at least two errors, and there are never more than four. |
| Cards.ValidateCardReportsEachField | internal/data/cards.go:63-69 | Each of `title`, `content` and `tags` has an error exactly when its own condition fails, whatever the other fields hold. |
| Cards.AllFailuresReported | internal/data/cards.go:63-69 | The checks all run and keep their order. A card with an empty title, empty content and an empty tag slice gets three errors, in that order. |
| Cards.SixTagsRejected | internal/data/cards.go:68 | An otherwise valid card with six tags fails only the "not more than 5 tags" check. |
| CardStore.ReadRow | internal/data/cards.go:88-101 | A row scans exactly when its snippet column scans, and a failed snippet scan is the error. Every other column is copied into the card. A NULL description becomes the empty string. |
| CardStore.ReadEntries | internal/data/cards.go:223-243 | A list of rows scans exactly when every row scans, and the cards come back in row order. A failure is the scan error of the first row that does not scan. |
| CardStore.Insert | internal/data/cards.go:71-79 | The new row gets a fresh positive id from the sequence and `now()` as created_at. Every other row is unchanged. The new row holds the card's columns. A database error leaves no row. |
| CardStore.Get | internal/data/cards.go:81-111 | `ErrRecordNotFound` is returned exactly when the statement runs and no row has the id. A database error is passed through. Otherwise the row is scanned, and the card carries the requested id. |
| CardStore.Update | internal/data/cards.go:113-139 | `ErrRecordNotFound` is returned exactly when the statement runs and no row has the card's id. On success the same ids remain, only that row changes, and it keeps its created_at while its other columns come from the card. |
| CardStore.Delete | internal/data/cards.go:141-162 | An id below 1 is not found, whatever the database would say. Otherwise `ErrRecordNotFound` is returned exactly when the statement runs and the id is absent. A successful delete removes exactly that id and leaves every other row unchanged. |
| CardStore.GetAfterInsert | internal/data/cards.go:71-111 | Fetching a freshly inserted card by its new id gives back the card, with the id and created_at the table assigned, whenever the codec carries the card's snippet through. |
| CardStore.GetAfterUpdate | internal/data/cards.go:81-139 | Fetching a card after updating it gives back the card with its original created_at, whenever the codec carries the card's snippet through. |
| CardStore.DeleteUndoesInsert | internal/data/cards.go:71-162 | Deleting a card just inserted succeeds and leaves the rows there were before. |
| CardStore.Collect | internal/data/cards.go:209-222 | Scanning a query's result visits each selected row exactly once. |
| CardStore.GetReviewCards | internal/data/cards.go:209-245 | Returns the cards whose review date is at or before midnight at the start of the current date (the instant `CURRENT_DATE` stands for), each exactly once, each read from its row. It succeeds whenever every due row scans. A database error is passed through, and a scan failure is the error of a due row that does not scan. |
| CardStore.GetRandomCard | internal/data/cards.go:247-282 | `ErrRecordNotFound` is returned exactly when the statement runs and the table is empty. On a non-empty table the statement returns one of the table's rows as scanned, so it succeeds whenever that row scans. Any card returned is a row of the table, read from it. |
| Ordering.CompareStringsAntisymmetric | internal/data/cards.go:170 | Title comparison is antisymmetric. |
| Ordering.CompareStringsTransitive | internal/data/cards.go:170 | Title comparison is transitive. |
| Ordering.CompareKeysAntisymmetric | internal/data/cards.go:170 | `ORDER BY column direction, created_at DESC` is total: swapping two rows flips the comparison. |
| Ordering.CompareKeysTransitive | internal/data/cards.go:170 | That ordering is transitive, in both directions and for every sort column. |
| Listing.EmptyFiltersListAll | internal/data/cards.go:168-169 | With an empty title and an empty tag list, every card is listed. |
| Listing.EmptyTitleFiltersNothing | internal/data/cards.go:168 | With an empty title, the rows listed are exactly those the tag filter selects, whatever the title matcher. A title only narrows the listing. |
| Listing.EmptyTagsFilterNothing | internal/data/cards.go:169 | With an empty tag list, the rows listed are exactly those the title filter selects. Tags only narrow the listing. |
| Listing.CardsInOrderMeansColumnThenNewest | internal/data/cards.go:170 | In a listed page, the sort column never goes against the direction, and cards that tie on it come newest first. |
| Listing.InsertSorted | internal/data/cards.go:170 | Inserting a row into an ordered sequence keeps it ordered and adds exactly that row. |
| Listing.SortEntries | internal/data/cards.go:170 | Sorting yields an ordered permutation of the rows. |
| Listing.Window | internal/data/cards.go:171 | LIMIT/OFFSET keeps exactly min(limit, rows after the offset) rows, starting at `offset`, in order. It is empty when the offset is past the end. |
| Listing.GetAll | internal/data/cards.go:164-207 | The page holds the window of an ordered listing of exactly the rows the filters select, so every card matches the title and tag filters. The total is the number of selected rows, or 0 when the page is empty. A database error, or a negative limit or offset, is a database error. A snippet that does not scan is a scan error. Once the statement runs with a non-negative limit and offset, the query succeeds exactly when every row of the window scans; rows outside the window are never scanned. |
| Listing.SortedStillLists | internal/data/cards.go:170-171 | Reordering the selected rows keeps each of them exactly once. |
| Schedule.Sub | cmd/api/cards.go:133 | `Time.Sub` is the exact difference when it fits in a Duration, and saturates at the Duration bounds otherwise. |
| Schedule.WholeDays | cmd/api/cards.go:133 | Whole days, truncated toward zero, bracket the duration within one day on the side of zero. |
| Schedule.NextInterval | cmd/api/cards.go:135-146 | The switch always returns a rung above the first. It returns 90 days exactly when the day difference is none of 1, 3, 7 and 14. |
| Schedule.NextIntervalFollowsLadder | cmd/api/cards.go:13-20 | The switch agrees with a reading of the ladder as a list. Each rung below the top moves to the next one, and 90 days stays at 90. |
| Schedule.Reschedule | cmd/api/cards.go:131-148 | The new review date is `calculateReviewDate(created_at, k)` for a rung k of 3 to 90 days. |
| Schedule.RescheduleClimbs | cmd/api/cards.go:131-148 | A review date between rung i and a day past it moves to rung i + 1. |
| Schedule.UnderADayJumpsToTop | cmd/api/cards.go:133-146 | A review date less than a whole day after creation, or before it, moves to 90 days. |
| Schedule.TruncationAgreesWithFloor | cmd/api/cards.go:133 | Truncating toward zero and flooring the day difference choose the same rung. |
| Schedule.TruncateToDay | cmd/api/cards.go:42 | `Truncate(24h)` gives the midnight that starts the instant's UTC day. |
| Schedule.FirstRescheduleJumpsToTop | cmd/api/cards.go:42 | When `calculateReviewDate` adds whole days, a card created after midnight skips the 3, 7, 14 and 30 day rungs at its first reschedule. |
| Schedule.MidnightCardClimbs | cmd/api/cards.go:42 | When `calculateReviewDate` adds whole days, a card created exactly at midnight climbs to 3 days at its first reschedule. |
| Schedule.SkewedClocksClimb | cmd/api/cards.go:42 | When `calculateReviewDate` adds whole days, a card whose `created_at` falls in the day before the handler's current day climbs to 3 days at its first reschedule. |
| Schedule.LaterReschedulesClimb | cmd/api/cards.go:131-148 | When `calculateReviewDate` adds whole days, a card on the 3, 7 or 14 day rung climbs one rung. |
| Handlers.ErrorResponse | cmd/api/cards.go:75-83 | 404 exactly for `ErrRecordNotFound`, and 500 for every other error. |
| Handlers.NewCard | cmd/api/cards.go:36-46 | A new card takes its title, content, tags and snippet from the body. Its review date is `calculateReviewDate` of the start of today and 1 day. Id, created_at and description are left at their zero values. |
| Handlers.NewCardValidIff | cmd/api/cards.go:36-52 | The card a create request builds is valid exactly when the body's title, content and tags are. |
| Handlers.NewCardDueNextMidnight | cmd/api/cards.go:42 | When `calculateReviewDate` adds whole days, a new card is first due at the next UTC midnight: after now, and at most a day later. |
| Handlers.CreateCard | cmd/api/cards.go:22-66 | An unreadable body is a 400. An invalid card is a 422 carrying the validation errors. A database error is a 500. Otherwise the response is a 201 whose card is the one built from the body, with the new id and the database's created_at. Exactly that row is added, and it holds the card's columns. Only a 201 changes the table. |
| Handlers.CreateIgnoresBodyReviewDate | cmd/api/cards.go:28-42 | Once the body is read, its `next_review_date` has no effect on the outcome. A malformed date still makes the body unreadable, which is a 400. |
| Handlers.CreateThenShow | cmd/api/cards.go:22-89 | A created card is shown back exactly as the create response returned it, whenever the codec carries the body's snippet through. |
| Handlers.ShowCard | cmd/api/cards.go:68-89 | 404 exactly when the id does not parse, or the query runs and finds no row. 200 with the scanned row exactly when the row exists and scans. 500 otherwise. |
| Handlers.ApplyPatch | cmd/api/cards.go:119-148 | Each field present in the body replaces the card's own. A present tag list replaces the tags even when empty. Id, created_at and description never change, and an existing snippet cannot be cleared. The review date changes only when `update_review_date` is true. |
| Handlers.EmptyPatchKeepsCard | cmd/api/cards.go:119-131 | A body with no fields and no true reschedule flag leaves the card unchanged. |
| Handlers.PatchIdempotent | cmd/api/cards.go:119-130 | Without a reschedule, applying the same body twice is the same as applying it once. |
| Handlers.PatchReschedules | cmd/api/cards.go:131-148 | A reschedule sets the review date from the card's created_at and previous review date alone, whatever else the body changes. |
| Handlers.UpdateCard | cmd/api/cards.go:91-164 | 404 exactly when the id does not parse, or the SELECT runs and finds no row, and every other SELECT error is a 500. For a fetched card: 400 exactly when the body is unreadable, 422 with the errors exactly when the patched card is invalid, 200 exactly when the patched card is valid and the UPDATE runs and finds the row, and 500 otherwise. A 200 carries the patched card, and that row now holds it with its created_at kept. Anything but a 200 leaves the table as it was. |
| Handlers.UpdateOfVanishedCardIsServerError | cmd/api/cards.go:97-158 | A row deleted between the SELECT and the UPDATE gives a 500, where a request that finds it missing gets a 404. |
| Handlers.UpdateThenShow | cmd/api/cards.go:91-164 | An updated card is shown back exactly as the update response returned it, whenever the codec carries the patched card's snippet through. |
| Handlers.DeleteCard | cmd/api/cards.go:166-186 | 200 exactly when the id parses, is at least 1, and names a row that the statement removes. 404 exactly when the id does not parse, is below 1, or is absent. A 200 removes only that row, and every other outcome leaves the table as it was. |
| Handlers.DeleteThenGone | cmd/api/cards.go:68-186 | After a delete, showing or deleting the card again is a 404. |
| Handlers.CreateThenDelete | cmd/api/cards.go:22-186 | Creating a card and then deleting it leaves the rows as they were. |
| Handlers.ListCards | cmd/api/cards.go:188-217 | Failed query-parameter checks give a 422 before any query, and any query error is a 500. A 200 page is the LIMIT/OFFSET window of an ordered listing of exactly the matching rows, each card read from its row. Its total is the number of matches, or 0 when the page is empty. Once the checks pass and the query runs with a non-negative limit and offset, the page is served exactly when every row of the window scans. |
| Handlers.ListReviewCards | cmd/api/cards.go:219-229 | A 200 lists every card whose review date is at or before midnight at the start of the current date exactly once, each read from its row. It is served whenever the query runs and every due row scans. Any error is a 500. |
| Handlers.RescheduledCardWaitsADay | internal/data/cards.go:213 | When the review date is `calculateReviewDate` of a `created_at` that is not a midnight, and `calculateReviewDate` adds whole days, the card is due at a midnight exactly when that midnight is after the review date's own day. It is not due at the midnight that starts that day. |
| Handlers.ShowRandomCard | cmd/api/cards.go:231-241 | A 200 carries some stored card, read from its row, and a non-empty table whose rows all scan always gets one. Every error is a 500, including an empty table. |

## Left out

- Reading requests and writing responses: `readJSON`, `readIDParam`, `readString`, `readCSV`, `readInt` and `writeJSON` are not part of this model. An unreadable body is the `Failure` case of `body`, and an unparsable id is `None`. A failure of `writeJSON` after a successful write is not modelled.
- The `Location` header of a create response is not modelled.
- The `validator` package is not part of this model. Its checks are modelled as the ordered list of every failed check. The package's map keeps one message per field, so a nil tag slice is reported there with a single `tags` message.
- `Filters`, `ValidateFilters`, `sortColumn`, `sortDirection`, `limit`, `offset` and `calculateMetadata` are not part of this model. `ListCards` takes the resulting sort order, limit, offset and filter errors as inputs, and returns the total count in place of the page metadata.
- `calculateReviewDate` (and the S3 and configuration code of `main.go` and `s3.go`) is not part of this model. The review date function is a parameter.
- The `fmt.Println` of the day difference in `updateCardHandler` is output only.
- `Hours()` is a float64 computation in Go, and the model divides whole nanoseconds exactly. Rounding can only lift a difference that falls a hair short of a whole day, and only beyond about 50 days, where every difference picks the 90-day rung either way.
- Title ordering uses code-point lexicographic comparison. PostgreSQL's collation of the database is not modelled.
- The full-text match `to_tsvector('simple', title) @@ plainto_tsquery('simple', q)` is an abstract `TitleMatch`.
- Go's `Truncate` on instants before the zero time, and `Time` values outside the int64 range of nanoseconds, are not modelled. Instants are unbounded integers counted from the zero time.
- A snippet pointer to a nil map is not distinguished from a nil pointer. The model's `Option` has only one "no snippet" value. A nil map marshals to `null`, which scans back as nil anyway.
- An insert that fails still consumes a value of the id sequence in PostgreSQL. The model leaves `nextId` unchanged on failure. This only affects which fresh id later inserts receive.
- Timestamps are kept to the nanosecond, but PostgreSQL timestamp columns hold microseconds (the table schema is not part of this model) and round a finer `next_review_date` or `created_at` on write. `CardStore.GetAfterInsert`, `CardStore.GetAfterUpdate`, `Handlers.CreateThenShow` and `Handlers.UpdateThenShow` therefore promise an exact round trip that the database gives only for microsecond-aligned dates. The handlers write such dates whenever `calculateReviewDate` adds whole days to a midnight or to a stored `created_at`.
- Concurrent requests are modelled only through `UpdateCard`'s two snapshots. Each other handler sees one state of the table.
- `routes.go` (the routing table) and `models.go` (beyond `ErrRecordNotFound`) hold no logic of their own.

=== FILE: card.dfy ===
/** The Card entity and the field checks `ValidateCard` applies to it. */
module Cards {
  import opened Wrappers
  import Snippets

  /** An instant, as nanoseconds since Go's zero time (00:00 UTC on January 1 of year 1). */
  type Date = int

  /** A Go `[]string`: a nil slice and an empty slice are different values. */
  datatype TagSlice = Nil | Slice(items: seq<string>) {

    /** `len` of the slice; nil has length 0. */
    function Len(): nat {
      if Nil? then 0 else |items|
    }
  }

  datatype Card = Card(
    id: int,
    createdAt: Date,
    title: string,
    tags: TagSlice,
    content: string,
    nextReviewDate: Date,
    snippet: Option<Snippets.Snippet>,
    description: string)

  /** One failed check: the field it is about and the message it reports. */
  datatype FieldError = FieldError(field: string, message: string)

  /** What a card must satisfy to be stored: a title, content, and 1 to 5 tags. */
  predicate WellFormed(card: Card) {
    && card.title != ""
    && card.content != ""
    && card.tags.Slice?
    && 1 <= |card.tags.items| <= 5
  }

  predicate HasError(errors: seq<FieldError>, field: string) {
    exists e :: e in errors && e.field == field
  }

  /** `validator.Check`: records the error only when the condition fails. */
  function Check(ok: bool, field: string, message: string): seq<FieldError> {
    if ok then [] else [FieldError(field, message)]
  }

  /** The three tag checks of `ValidateCard`: provided, at least 1, at most 5. */
  function TagErrors(tags: TagSlice): (errors: seq<FieldError>)
    ensures errors == [] <==> tags.Slice? && 1 <= |tags.items| <= 5
    ensures forall e :: e in errors ==> e.field == "tags"
    ensures tags.Nil? ==> |errors| == 2
    ensures |errors| <= 2
  {
    Check(tags.Slice?, "tags", "must be provided")
    + Check(tags.Len() >= 1, "tags", "must contain at least 1 tag")
    + Check(tags.Len() <= 5, "tags", "must not contain more than 5 tags")
  }

  /**
   * `ValidateCard`: runs all five checks, each independently of the others,
   * and returns the errors of the failed ones in order.
   */
  function ValidateCard(card: Card): (errors: seq<FieldError>)
    ensures errors == [] <==> WellFormed(card)
    ensures card.tags.Nil? ==> |errors| >= 2
    ensures |errors| <= 4
  {
    Check(card.title != "", "title", "must be provided")
    + Check(card.content != "", "content", "must be provided")
    + TagErrors(card.tags)
  }

  /** Each field has an error exactly when its own condition fails, whatever the other fields hold. */
  lemma ValidateCardReportsEachField(card: Card)
    ensures HasError(ValidateCard(card), "title") <==> card.title == ""
    ensures HasError(ValidateCard(card), "content") <==> card.content == ""
    ensures HasError(ValidateCard(card), "tags") <==> !(card.tags.Slice? && 1 <= |card.tags.items| <= 5)
  {
  }

  /** Validation does not stop at the first failure: three bad fields give three errors. */
  lemma AllFailuresReported(card: Card)
    requires card.title == "" && card.content == "" && card.tags == Slice([])
    ensures ValidateCard(card) == [
      FieldError("title", "must be provided"),
      FieldError("content", "must be provided"),
      FieldError("tags", "must contain at least 1 tag")]
  {
  }

  /** Six tags are one too many, and only the upper bound fails. */
  lemma SixTagsRejected(card: Card)
    requires WellFormed(card.(tags := Slice(["a"])))
    requires card.tags.Slice? && |card.tags.items| == 6
    ensures ValidateCard(card) == [FieldError("tags", "must not contain more than 5 tags")]
  {
  }
}

=== FILE: handlers.dfy ===
/**
 * The HTTP handlers for `/v1/cards`: how each request becomes a card, which
 * model call it makes, and which response each outcome maps to. Reading the
 * request is left out: an unreadable body is the `Failure` case of `body`,
 * and an unparsable id path parameter is `None`. `now` is the server clock
 * when the handler runs and `dbNow` the database's `now()` when the row is
 * inserted.
 */
module Handlers {
  import opened Wrappers
  import opened Cards
  import opened Snippets
  import opened Schedule
  import opened Ordering
  import opened CardStore
  import opened Listing

  /** The responses the handlers write, by status code and envelope. */
  datatype Response =
    | Created(card: Card)                       // 201 {"card": ...}
    | Ok(card: Card)                            // 200 {"card": ...}
    | OkPage(page: Page)                        // 200 {"cards": ..., "metadata": ...}
    | OkCards(cards: seq<Card>)                 // 200 {"cards": ...}
    | Deleted                                   // 200 {"message": "card successfully deleted"}
    | BadRequest(message: string)               // 400
    | NotFound                                  // 404
    | FailedValidation(errors: seq<FieldError>) // 422
    | ServerError                               // 500

  /** A response and the table after the request. */
  datatype Outcome = Outcome(response: Response, store: Store)

  /** `notFoundResponse` for `ErrRecordNotFound`, `serverErrorResponse` for anything else. */
  function ErrorResponse(e: DbError): (r: Response)
    ensures r == NotFound || r == ServerError
    ensures r == NotFound <==> e == ErrRecordNotFound
  {
    if e == ErrRecordNotFound then NotFound else ServerError
  }

  /** The JSON body of a create request. */
  datatype CreateInput = CreateInput(
    title: string,
    tags: TagSlice,
    content: string,
    snippet: Option<Snippet>,
    nextReviewDate: Date)

  /**
   * The card a create request makes: title, content, tags and snippet come
   * from the body, and the first review date is one day after the start of
   * today; the body's own `next_review_date` is decoded and then ignored.
   */
  function NewCard(input: CreateInput, now: Date, reviewDate: ReviewDateFn): (card: Card)
    ensures card.title == input.title && card.content == input.content
    ensures card.tags == input.tags && card.snippet == input.snippet
    ensures card.id == 0 && card.createdAt == 0 && card.description == ""
    ensures card.nextReviewDate == reviewDate(TruncateToDay(now), Tomorrow)
  {
    Card(0, 0, input.title, input.tags, input.content,
         reviewDate(TruncateToDay(now), Tomorrow), input.snippet, "")
  }

  /** The card a create request stores is valid exactly when the body's fields are. */
  lemma NewCardValidIff(input: CreateInput, now: Date, reviewDate: ReviewDateFn)
    ensures ValidateCard(NewCard(input, now, reviewDate)) == []
      <==> input.title != "" && input.content != "" && input.tags.Slice? && 1 <= |input.tags.items| <= 5
  {
  }

  /**
   * With a `calculateReviewDate` that adds whole days, a new card is first
   * due at the next midnight UTC: strictly after `now`, at most a day later.
   */
  lemma NewCardDueNextMidnight(input: CreateInput, now: Date, reviewDate: ReviewDateFn)
    requires AddsWholeDays(reviewDate)
    ensures var due := NewCard(input, now, reviewDate).nextReviewDate;
      due % Day == 0 && now < due <= now + Day
  {
  }

  /**
   * `createCardHandler`: reads the body, builds the card, validates it and
   * inserts it; the response carries the id and created_at the table
   * assigned.
   */
  function CreateCard(s: Store, body: Result<CreateInput, string>, now: Date, dbNow: Date,
                      reviewDate: ReviewDateFn, codec: Codec, failure: Option<string>): (r: Outcome)
    requires Valid(s)
    ensures Valid(r.store)
    ensures body.Failure? ==> r == Outcome(BadRequest(body.error), s)
    ensures r.response.Created? <==> body.Success? && ValidateCard(NewCard(body.value, now, reviewDate)) == [] && failure.None?
    ensures r.response.FailedValidation? <==> body.Success? && ValidateCard(NewCard(body.value, now, reviewDate)) != []
    ensures r.response.FailedValidation? ==> r.response.errors == ValidateCard(NewCard(body.value, now, reviewDate))
    ensures r.response.ServerError? <==> body.Success? && ValidateCard(NewCard(body.value, now, reviewDate)) == [] && failure.Some?
    ensures !r.response.Created? ==> r.store == s
    ensures r.response.Created? ==>
      var card := r.response.card;
      && card == NewCard(body.value, now, reviewDate).(id := card.id, createdAt := dbNow)
      && card.id !in s.rows && card.id >= 1
      && r.store.rows.Keys == s.rows.Keys + {card.id}
      && (forall id :: id in s.rows ==> r.store.rows[id] == s.rows[id])
      && r.store.rows[card.id] == RowOf(card, dbNow, codec)
  {
    if body.Failure? then Outcome(BadRequest(body.error), s)
    else
      var card := NewCard(body.value, now, reviewDate);
      var errors := ValidateCard(card);
      if errors != [] then Outcome(FailedValidation(errors), s)
      else
        match Insert(s, card, dbNow, codec, failure)
        case Failure(_) => Outcome(ServerError, s)
        case Success(ins) => Outcome(Created(card.(id := ins.id, createdAt := ins.createdAt)), ins.store)
  }

  /** A card that differs only in the ignored `next_review_date` of the body is created the same way. */
  lemma CreateIgnoresBodyReviewDate(s: Store, input: CreateInput, other: Date, now: Date, dbNow: Date,
                                    reviewDate: ReviewDateFn, codec: Codec, failure: Option<string>)
    requires Valid(s)
    ensures CreateCard(s, Success(input), now, dbNow, reviewDate, codec, failure)
         == CreateCard(s, Success(input.(nextReviewDate := other)), now, dbNow, reviewDate, codec, failure)
  {
  }

  /** `showCardHandler`: the card with the id from the path. */
  function ShowCard(s: Store, id: Option<int>, codec: Codec, failure: Option<string>): (r: Response)
    ensures r.Ok? || r == NotFound || r == ServerError
    ensures r == NotFound <==> id.None? || (failure.None? && id.value !in s.rows)
    ensures r.Ok? <==> id.Some? && failure.None? && id.value in s.rows
                       && ReadRow(Entry(id.value, s.rows[id.value]), codec).Success?
    ensures r.Ok? ==> Success(r.card) == ReadRow(Entry(id.value, s.rows[id.value]), codec)
  {
    if id.None? then NotFound
    else
      match Get(s, id.value, codec, failure)
      case Failure(e) => ErrorResponse(e)
      case Success(card) => Ok(card)
  }

  /** A created card is shown back as it was returned, when the codec carries its snippet through. */
  lemma CreateThenShow(s: Store, input: CreateInput, now: Date, dbNow: Date,
                       reviewDate: ReviewDateFn, codec: Codec)
    requires Valid(s)
    requires RoundTrips(codec, input.snippet)
    ensures var out := CreateCard(s, Success(input), now, dbNow, reviewDate, codec, None);
      out.response.Created? ==> ShowCard(out.store, Some(out.response.card.id), codec, None) == Ok(out.response.card)
  {
  }

  /** The JSON body of an update request; an absent field is `None`. */
  datatype Patch = Patch(
    title: Option<string>,
    tags: Option<seq<string>>,
    content: Option<string>,
    snippet: Option<Snippet>,
    updateReviewDate: Option<bool>)

  /**
   * Applying an update body: each field present replaces the card's own
   * (a present tag list, even an empty one, replaces the tags), and
   * `update_review_date: true` moves the review date to the next rung.
   */
  function ApplyPatch(card: Card, p: Patch, reviewDate: ReviewDateFn): (r: Card)
    ensures r.id == card.id && r.createdAt == card.createdAt && r.description == card.description
    ensures r.title == p.title.GetOr(card.title)
    ensures r.content == p.content.GetOr(card.content)
    ensures r.tags == (if p.tags.Some? then Slice(p.tags.value) else card.tags)
    ensures r.snippet == (if p.snippet.Some? then p.snippet else card.snippet)
    ensures card.snippet.Some? ==> r.snippet.Some?
    ensures r.nextReviewDate != card.nextReviewDate ==> p.updateReviewDate == Some(true)
  {
    var title := if p.title.Some? then p.title.value else card.title;
    var content := if p.content.Some? then p.content.value else card.content;
    var tags := if p.tags.Some? then Slice(p.tags.value) else card.tags;
    var snippet := if p.snippet.Some? then p.snippet else card.snippet;
    var due := if p.updateReviewDate == Some(true)
               then Reschedule(card.createdAt, card.nextReviewDate, reviewDate)
               else card.nextReviewDate;
    card.(title := title, content := content, tags := tags, snippet := snippet, nextReviewDate := due)
  }

  /** An update body with no fields leaves the card as it is. */
  lemma EmptyPatchKeepsCard(card: Card, reviewDate: ReviewDateFn, flag: Option<bool>)
    requires flag != Some(true)
    ensures ApplyPatch(card, Patch(None, None, None, None, flag), reviewDate) == card
  {
  }

  /** Without a reschedule, applying the same body twice is applying it once. */
  lemma PatchIdempotent(card: Card, p: Patch, reviewDate: ReviewDateFn)
    requires p.updateReviewDate != Some(true)
    ensures ApplyPatch(ApplyPatch(card, p, reviewDate), p, reviewDate) == ApplyPatch(card, p, reviewDate)
  {
  }

  /** A reschedule sets the review date from the card's schedule alone, whatever else the body changes. */
  lemma PatchReschedules(card: Card, p: Patch, reviewDate: ReviewDateFn)
    requires p.updateReviewDate == Some(true)
    ensures ApplyPatch(card, p, reviewDate).nextReviewDate == Reschedule(card.createdAt, card.nextReviewDate, reviewDate)
    ensures ApplyPatch(card, p, reviewDate).nextReviewDate
         == ApplyPatch(card, Patch(None, None, None, None, Some(true)), reviewDate).nextReviewDate
  {
  }

  /**
   * `updateCardHandler`: fetches the card from `s`, applies the body,
   * validates the result and writes it to `current`, the table as it is
   * when the UPDATE runs. Any error of the UPDATE, a vanished row included,
   * is a server error.
   */
  function UpdateCard(s: Store, current: Store, id: Option<int>, body: Result<Patch, string>,
                      reviewDate: ReviewDateFn, codec: Codec,
                      getFailure: Option<string>, updateFailure: Option<string>): (r: Outcome)
    ensures r.response.Ok? || r.response.NotFound? || r.response.ServerError?
         || r.response.BadRequest? || r.response.FailedValidation?
    ensures r.response == NotFound <==> id.None? || (getFailure.None? && id.value !in s.rows)
    ensures id.Some? ==>
      var found := Get(s, id.value, codec, getFailure);
      && (found.Failure? ==> r == Outcome(ErrorResponse(found.error), current))
      && (r.response.BadRequest? <==> found.Success? && body.Failure?)
      && (found.Success? && body.Success? ==>
            var card := ApplyPatch(found.value, body.value, reviewDate);
            && (r.response.FailedValidation? <==> ValidateCard(card) != [])
            && (r.response.Ok? <==> ValidateCard(card) == [] && updateFailure.None? && id.value in current.rows)
            && (r.response.ServerError? <==>
                  ValidateCard(card) == [] && (updateFailure.Some? || id.value !in current.rows)))
    ensures !r.response.Ok? ==> r.store == current
    ensures Valid(current) ==> Valid(r.store)
    ensures r.response.BadRequest? ==> body.Failure? && r.response.message == body.error
    ensures r.response.Ok? ==>
      && id.Some? && body.Success? && getFailure.None? && updateFailure.None?
      && id.value in s.rows && id.value in current.rows
      && Get(s, id.value, codec, None).Success?
      && var card := ApplyPatch(Get(s, id.value, codec, None).value, body.value, reviewDate);
        && r.response.card == card
        && ValidateCard(card) == []
        && r.store.rows.Keys == current.rows.Keys
        && r.store.rows[id.value] == RowOf(card, current.rows[id.value].createdAt, codec)
        && (forall k :: k in current.rows && k != id.value ==> r.store.rows[k] == current.rows[k])
    ensures r.response.FailedValidation? ==>
      && id.Some? && body.Success? && Get(s, id.value, codec, getFailure).Success?
      && r.response.errors == ValidateCard(ApplyPatch(Get(s, id.value, codec, getFailure).value, body.value, reviewDate))
      && r.response.errors != []
  {
    if id.None? then Outcome(NotFound, current)
    else
      match Get(s, id.value, codec, getFailure)
      case Failure(e) => Outcome(ErrorResponse(e), current)
      case Success(found) =>
        if body.Failure? then Outcome(BadRequest(body.error), current)
        else
          var card := ApplyPatch(found, body.value, reviewDate);
          var errors := ValidateCard(card);
          if errors != [] then Outcome(FailedValidation(errors), current)
          else
            match Update(current, card, codec, updateFailure)
            case Failure(_) => Outcome(ServerError, current)
            case Success(updated) => Outcome(Ok(card), updated)
  }

  /**
   * A card deleted between the handler's SELECT and its UPDATE gets a 500,
   * not the 404 a request that arrives a moment later gets.
   */
  lemma UpdateOfVanishedCardIsServerError(s: Store, current: Store, id: int, p: Patch,
                                          reviewDate: ReviewDateFn, codec: Codec)
    requires id in s.rows && id !in current.rows
    requires Get(s, id, codec, None).Success?
    requires ValidateCard(ApplyPatch(Get(s, id, codec, None).value, p, reviewDate)) == []
    ensures UpdateCard(s, current, Some(id), Success(p), reviewDate, codec, None, None) == Outcome(ServerError, current)
    ensures UpdateCard(current, current, Some(id), Success(p), reviewDate, codec, None, None).response == NotFound
  {
  }

  /** An updated card is shown back as the update returned it, when the codec carries its snippet through. */
  lemma UpdateThenShow(s: Store, id: int, p: Patch, reviewDate: ReviewDateFn, codec: Codec)
    requires Get(s, id, codec, None).Success? ==>
      RoundTrips(codec, ApplyPatch(Get(s, id, codec, None).value, p, reviewDate).snippet)
    ensures var out := UpdateCard(s, s, Some(id), Success(p), reviewDate, codec, None, None);
      out.response.Ok? ==> ShowCard(out.store, Some(id), codec, None) == Ok(out.response.card)
  {
  }

  /** `deleteCardHandler`: removes the card with the id from the path. */
  function DeleteCard(s: Store, id: Option<int>, failure: Option<string>): (r: Outcome)
    ensures r.response == Deleted || r.response == NotFound || r.response == ServerError
    ensures r.response == Deleted <==> id.Some? && id.value >= 1 && failure.None? && id.value in s.rows
    ensures r.response == NotFound <==> id.None? || id.value < 1 || (failure.None? && id.value !in s.rows)
    ensures r.response == Deleted ==> r.store.rows.Keys == s.rows.Keys - {id.value}
    ensures r.response == Deleted ==> forall k :: k in r.store.rows ==> r.store.rows[k] == s.rows[k]
    ensures r.response != Deleted ==> r.store == s
    ensures Valid(s) ==> Valid(r.store)
  {
    if id.None? then Outcome(NotFound, s)
    else
      match Delete(s, id.value, failure)
      case Failure(e) => Outcome(ErrorResponse(e), s)
      case Success(deleted) => Outcome(Deleted, deleted)
  }

  /** After a delete the card is gone: showing or deleting it again is a 404. */
  lemma DeleteThenGone(s: Store, id: int, codec: Codec)
    ensures var out := DeleteCard(s, Some(id), None);
      out.response == Deleted ==>
        && ShowCard(out.store, Some(id), codec, None) == NotFound
        && DeleteCard(out.store, Some(id), None).response == NotFound
  {
  }

  /** A card created and then deleted leaves the table's rows as they were. */
  lemma CreateThenDelete(s: Store, input: CreateInput, now: Date, dbNow: Date,
                         reviewDate: ReviewDateFn, codec: Codec)
    requires Valid(s)
    ensures var out := CreateCard(s, Success(input), now, dbNow, reviewDate, codec, None);
      out.response.Created? ==>
        var del := DeleteCard(out.store, Some(out.response.card.id), None);
        del.response == Deleted && del.store.rows == s.rows
  {
  }

  /**
   * `listCardsHandler`: `filterErrors` are the failures of the query
   * parameter checks, which answer 422 before any query; any error of the
   * query itself is a server error.
   */
  method ListCards(s: Store, title: string, tags: seq<string>, order: SortOrder, limit: int, offset: int,
                   filterErrors: seq<FieldError>, matches: TitleMatch, codec: Codec, failure: Option<string>)
    returns (r: Response, ghost ordered: seq<Entry>)
    ensures r.OkPage? || r.FailedValidation? || r == ServerError
    ensures filterErrors != [] ==> r == FailedValidation(filterErrors)
    ensures filterErrors == [] && failure.Some? ==> r == ServerError
    ensures filterErrors == [] && (limit < 0 || offset < 0) ==> r == ServerError
    ensures (filterErrors == [] && failure.None? && limit >= 0 && offset >= 0
             && AllListedScan(s, title, tags, matches, codec)) ==> r.OkPage?
    ensures filterErrors == [] && failure.None? && limit >= 0 && offset >= 0 ==>
      && OrdersListing(ordered, s, title, tags, matches, order)
      && var w := Window(ordered, limit, offset);
        (r.OkPage? <==> forall i :: 0 <= i < |w| ==> ReadRow(w[i], codec).Success?)
    ensures r.OkPage? ==>
      && filterErrors == []
      && |r.page.cards| <= limit
      && CardsInOrder(order, r.page.cards)
      && (forall i :: 0 <= i < |r.page.cards| ==> r.page.cards[i].id in ListedIds(s, title, tags, matches))
      && r.page.totalRecords == (if r.page.cards == [] then 0 else |ListedIds(s, title, tags, matches)|)
    ensures r.OkPage? ==>
      && limit >= 0 && offset >= 0
      && OrdersListing(ordered, s, title, tags, matches, order)
      && var w := Window(ordered, limit, offset);
        |r.page.cards| == |w| && forall i :: 0 <= i < |w| ==> ReadRow(w[i], codec) == Success(r.page.cards[i])
  {
    ordered := [];
    if filterErrors != [] {
      return FailedValidation(filterErrors), ordered;
    }
    var page;
    page, ordered := GetAll(s, title, tags, order, limit, offset, matches, codec, failure);
    if page.Failure? {
      return ServerError, ordered;
    }
    return OkPage(page.value), ordered;
  }

  /**
   * `listReviewCardHandler`: every card whose review date is at or before
   * midnight at the start of the current date, or a server error.
   */
  method ListReviewCards(s: Store, today: Date, codec: Codec, failure: Option<string>) returns (r: Response)
    ensures r.OkCards? || r == ServerError
    ensures failure.Some? ==> r == ServerError
    ensures r.OkCards? ==>
      && |r.cards| == |DueIds(s, today)|
      && (forall i :: 0 <= i < |r.cards| ==>
            r.cards[i].id in DueIds(s, today)
            && ReadRow(Entry(r.cards[i].id, s.rows[r.cards[i].id]), codec) == Success(r.cards[i]))
      && (forall id :: id in DueIds(s, today) ==> exists i :: 0 <= i < |r.cards| && r.cards[i].id == id)
    ensures failure.None? && (forall id :: id in DueIds(s, today) ==> ReadRow(Entry(id, s.rows[id]), codec).Success?) ==>
      r.OkCards?
  {
    var cards := GetReviewCards(s, today, codec, failure);
    if cards.Failure? {
      return ServerError;
    }
    return OkCards(cards.value);
  }

  /**
   * A review date that `calculateReviewDate` computes from a created_at
   * that is not a midnight keeps its time of day, so the card is listed
   * for review from the midnight after that date, not on the date itself.
   */
  lemma RescheduledCardWaitsADay(s: Store, id: int, reviewDate: ReviewDateFn, days: int, today: Date)
    requires AddsWholeDays(reviewDate)
    requires id in s.rows
    requires s.rows[id].createdAt % Day != 0
    requires s.rows[id].nextReviewDate == reviewDate(s.rows[id].createdAt, days)
    requires today % Day == 0
    ensures id in DueIds(s, today) <==> today >= TruncateToDay(s.rows[id].nextReviewDate) + Day
    ensures id !in DueIds(s, TruncateToDay(s.rows[id].nextReviewDate))
  {
  }

  /**
   * `showRandomCard`: some card of the table. Every error is a server
   * error, so an empty table answers 500 where `showCardHandler` answers 404.
   */
  method ShowRandomCard(s: Store, codec: Codec, failure: Option<string>) returns (r: Response)
    ensures r.Ok? || r == ServerError
    ensures s.rows == map[] ==> r == ServerError
    ensures failure.Some? ==> r == ServerError
    ensures failure.None? && s.rows != map[] && (forall id :: id in s.rows ==> ReadRow(Entry(id, s.rows[id]), codec).Success?) ==>
      r.Ok?
    ensures r.Ok? ==> r.card.id in s.rows && ReadRow(Entry(r.card.id, s.rows[r.card.id]), codec) == Success(r.card)
  {
    var card := GetRandomCard(s, codec, failure);
    if card.Failure? {
      return ServerError;
    }
    return Ok(card.value);
  }
}

=== FILE: listing.dfy ===
/**
 * `CardModel.GetAll`: the title and tag filters, the ORDER BY, the
 * LIMIT/OFFSET window and the `count(*) OVER()` total.
 */
module Listing {
  import opened Wrappers
  import opened Cards
  import opened Snippets
  import opened Ordering
  import opened CardStore

  /** The full-text match `to_tsvector(title) @@ plainto_tsquery(query)`, left abstract. */
  type TitleMatch = (string, string) -> bool

  /** The tag filter `tags @> wanted`: the row's tag array holds every wanted tag; NULL holds none. */
  predicate HasAllTags(tags: TagSlice, wanted: seq<string>) {
    tags.Slice? && forall t :: t in wanted ==> t in tags.items
  }

  /** The WHERE clause; an empty title or an empty tag list filters nothing. */
  predicate Listed(row: Row, title: string, tags: seq<string>, matches: TitleMatch) {
    && (title == "" || matches(row.title, title))
    && (tags == [] || HasAllTags(row.tags, tags))
  }

  function ListedIds(s: Store, title: string, tags: seq<string>, matches: TitleMatch): set<int> {
    set id | id in s.rows && Listed(s.rows[id], title, tags, matches)
  }

  /** Without a title or tags every card is listed. */
  lemma EmptyFiltersListAll(s: Store, matches: TitleMatch)
    ensures ListedIds(s, "", [], matches) == s.rows.Keys
  {
    assert forall id :: id in s.rows ==> Listed(s.rows[id], "", [], matches);
  }

  /** An empty title filters nothing: the rows listed are those the tag filter alone selects. */
  lemma EmptyTitleFiltersNothing(s: Store, title: string, tags: seq<string>, matches: TitleMatch, other: TitleMatch)
    ensures ListedIds(s, "", tags, matches) == set id | id in s.rows && (tags == [] || HasAllTags(s.rows[id].tags, tags))
    ensures ListedIds(s, "", tags, matches) == ListedIds(s, "", tags, other)
    ensures ListedIds(s, title, tags, matches) <= ListedIds(s, "", tags, matches)
  {
    forall id | id in s.rows
      ensures Listed(s.rows[id], "", tags, matches) <==> (tags == [] || HasAllTags(s.rows[id].tags, tags))
      ensures Listed(s.rows[id], "", tags, matches) == Listed(s.rows[id], "", tags, other)
      ensures Listed(s.rows[id], title, tags, matches) ==> Listed(s.rows[id], "", tags, matches)
    {
    }
  }

  /** An empty tag list filters nothing: the rows listed are those the title filter alone selects. */
  lemma EmptyTagsFilterNothing(s: Store, title: string, tags: seq<string>, matches: TitleMatch)
    ensures ListedIds(s, title, [], matches) == set id | id in s.rows && (title == "" || matches(s.rows[id].title, title))
    ensures ListedIds(s, title, tags, matches) <= ListedIds(s, title, [], matches)
  {
    forall id | id in s.rows
      ensures Listed(s.rows[id], title, [], matches) <==> (title == "" || matches(s.rows[id].title, title))
      ensures Listed(s.rows[id], title, tags, matches) ==> Listed(s.rows[id], title, [], matches)
    {
    }
  }

  function KeyOf(e: Entry): SortKey {
    SortKey(e.id, e.row.title, e.row.createdAt, e.row.nextReviewDate)
  }

  function KeyOfCard(c: Card): SortKey {
    SortKey(c.id, c.title, c.createdAt, c.nextReviewDate)
  }

  /** Entries in the order `ORDER BY` puts them. */
  ghost predicate InOrder(order: SortOrder, es: seq<Entry>) {
    forall i, j :: 0 <= i < j < |es| ==> CompareKeys(order, KeyOf(es[i]), KeyOf(es[j])) <= 0
  }

  /** Cards in the order `ORDER BY` puts them. */
  ghost predicate CardsInOrder(order: SortOrder, cards: seq<Card>) {
    forall i, j :: 0 <= i < j < |cards| ==> CompareKeys(order, KeyOfCard(cards[i]), KeyOfCard(cards[j])) <= 0
  }

  /**
   * In an ordered page the sort column never goes backwards, and cards that
   * tie on it come newest first.
   */
  lemma CardsInOrderMeansColumnThenNewest(order: SortOrder, cards: seq<Card>, i: int, j: int)
    requires CardsInOrder(order, cards)
    requires 0 <= i < j < |cards|
    ensures ComparePrimary(order, KeyOfCard(cards[i]), KeyOfCard(cards[j])) <= 0
    ensures ComparePrimary(order, KeyOfCard(cards[i]), KeyOfCard(cards[j])) == 0 ==>
      cards[i].createdAt >= cards[j].createdAt
  {
  }

  lemma InOrderCons(order: SortOrder, x: Entry, es: seq<Entry>)
    requires InOrder(order, es)
    requires forall j :: 0 <= j < |es| ==> CompareKeys(order, KeyOf(x), KeyOf(es[j])) <= 0
    ensures InOrder(order, [x] + es)
  {
  }

  lemma BelowHeadBelowAll(order: SortOrder, x: Entry, es: seq<Entry>)
    requires es != [] && InOrder(order, es)
    requires CompareKeys(order, KeyOf(x), KeyOf(es[0])) <= 0
    ensures forall j :: 0 <= j < |es| ==> CompareKeys(order, KeyOf(x), KeyOf(es[j])) <= 0
  {
    forall j | 0 < j < |es|
      ensures CompareKeys(order, KeyOf(x), KeyOf(es[j])) <= 0
    {
      CompareKeysTransitive(order, KeyOf(x), KeyOf(es[0]), KeyOf(es[j]));
    }
  }

  lemma HeadBelowInserted(order: SortOrder, es: seq<Entry>, x: Entry, rest: seq<Entry>)
    requires es != [] && InOrder(order, es)
    requires CompareKeys(order, KeyOf(es[0]), KeyOf(x)) <= 0
    requires multiset(rest) == multiset(es[1..]) + multiset{x}
    ensures forall j :: 0 <= j < |rest| ==> CompareKeys(order, KeyOf(es[0]), KeyOf(rest[j])) <= 0
  {
    forall j | 0 <= j < |rest|
      ensures CompareKeys(order, KeyOf(es[0]), KeyOf(rest[j])) <= 0
    {
      assert rest[j] in multiset(rest);
      if rest[j] != x {
        assert rest[j] in multiset(es[1..]);
        var k :| 0 <= k < |es[1..]| && es[1..][k] == rest[j];
        assert es[k + 1] == rest[j];
      }
    }
  }

  /** Inserts `x` after the entries that sort before or level with it. */
  function InsertSorted(order: SortOrder, x: Entry, es: seq<Entry>): (r: seq<Entry>)
    requires InOrder(order, es)
    ensures InOrder(order, r)
    ensures multiset(r) == multiset(es) + multiset{x}
  {
    if es == [] then [x]
    else if CompareKeys(order, KeyOf(x), KeyOf(es[0])) < 0 then
      BelowHeadBelowAll(order, x, es);
      InOrderCons(order, x, es);
      [x] + es
    else
      var rest := InsertSorted(order, x, es[1..]);
      assert es == [es[0]] + es[1..];
      CompareKeysAntisymmetric(order, KeyOf(x), KeyOf(es[0]));
      HeadBelowInserted(order, es, x, rest);
      InOrderCons(order, es[0], rest);
      [es[0]] + rest
  }

  /** Insertion sort: some ordering of `es` that `ORDER BY` accepts. */
  function SortEntries(order: SortOrder, es: seq<Entry>): (r: seq<Entry>)
    ensures InOrder(order, r)
    ensures multiset(r) == multiset(es)
  {
    if es == [] then []
    else
      assert es == [es[0]] + es[1..];
      InsertSorted(order, es[0], SortEntries(order, es[1..]))
  }

  /** The `LIMIT limit OFFSET offset` window of a sequence. */
  function Window<T>(xs: seq<T>, limit: nat, offset: nat): (w: seq<T>)
    ensures |w| <= limit
    ensures |w| == if offset >= |xs| then 0 else if limit < |xs| - offset then limit else |xs| - offset
    ensures offset >= |xs| ==> w == []
    ensures offset < |xs| && limit > 0 ==> w != [] && w[0] == xs[offset]
    ensures forall i :: 0 <= i < |w| ==> offset + i < |xs| && w[i] == xs[offset + i]
  {
    var lo := if offset < |xs| then offset else |xs|;
    var hi := if lo + limit < |xs| then lo + limit else |xs|;
    xs[lo..hi]
  }

  /** Every row the filters select scans into a card. */
  predicate AllListedScan(s: Store, title: string, tags: seq<string>, matches: TitleMatch, codec: Codec) {
    forall id :: id in ListedIds(s, title, tags, matches) ==> ReadRow(Entry(id, s.rows[id]), codec).Success?
  }

  /** A page of cards and the count of every card the filters match. */
  datatype Page = Page(cards: seq<Card>, totalRecords: int)

  /** `es` is an ordering of exactly the listed rows of `s`. */
  ghost predicate OrdersListing(es: seq<Entry>, s: Store, title: string, tags: seq<string>,
                                matches: TitleMatch, order: SortOrder) {
    && InOrder(order, es)
    && Lists(es, s.rows, ListedIds(s, title, tags, matches))
    && |es| == |ListedIds(s, title, tags, matches)|
  }

  /**
   * `GetAll`: the cards the filters select, ordered by the sort column
   * and direction and then newest first, cut to the LIMIT/OFFSET window.
   * The total comes from the first scanned row, so it stays 0 on an
   * empty page even when matching cards lie before the offset.
   */
  method GetAll(s: Store, title: string, tags: seq<string>, order: SortOrder, limit: int, offset: int,
                matches: TitleMatch, codec: Codec, failure: Option<string>)
    returns (r: Result<Page, DbError>, ghost ordered: seq<Entry>)
    ensures failure.Some? ==> r == Failure(StorageError(failure.value))
    ensures limit < 0 || offset < 0 ==> r.Failure? && r.error.StorageError?
    ensures r.Failure? && failure.None? && limit >= 0 && offset >= 0 ==> r.error.ScanFailed?
    ensures failure.None? && limit >= 0 && offset >= 0 && AllListedScan(s, title, tags, matches, codec) ==> r.Success?
    ensures failure.None? && limit >= 0 && offset >= 0 ==> OrdersListing(ordered, s, title, tags, matches, order)
    ensures failure.None? && limit >= 0 && offset >= 0 ==>
      var w := Window(ordered, limit, offset);
      (r.Success? <==> forall i :: 0 <= i < |w| ==> ReadRow(w[i], codec).Success?)
    ensures r.Success? ==> limit >= 0 && offset >= 0 && OrdersListing(ordered, s, title, tags, matches, order)
    ensures r.Success? ==> |r.value.cards| <= limit
    ensures r.Success? ==> var w := Window(ordered, limit, offset);
      |r.value.cards| == |w| && forall i :: 0 <= i < |w| ==> ReadRow(w[i], codec) == Success(r.value.cards[i])
    ensures r.Success? ==> CardsInOrder(order, r.value.cards)
    ensures r.Success? ==> forall i :: 0 <= i < |r.value.cards| ==>
      r.value.cards[i].id in ListedIds(s, title, tags, matches)
    ensures r.Success? ==> forall i :: 0 <= i < |r.value.cards| ==>
      tags == [] || HasAllTags(r.value.cards[i].tags, tags)
    ensures r.Success? ==>
      r.value.totalRecords == (if r.value.cards == [] then 0 else |ListedIds(s, title, tags, matches)|)
  {
    ordered := [];
    if failure.Some? {
      return Failure(StorageError(failure.value)), ordered;
    }
    if limit < 0 || offset < 0 {
      return Failure(StorageError("LIMIT and OFFSET must not be negative")), ordered;
    }
    var listed := (e: Entry) => Listed(e.row, title, tags, matches);
    var es := Collect(s.rows, listed);
    assert Kept(s.rows, s.rows.Keys, listed) == ListedIds(s, title, tags, matches);
    var sorted := SortEntries(order, es);
    ordered := sorted;
    SortedStillLists(es, sorted, s.rows, ListedIds(s, title, tags, matches));
    var w := Window(sorted, limit, offset);
    if AllListedScan(s, title, tags, matches, codec) {
      forall i | 0 <= i < |w|
        ensures ReadRow(w[i], codec).Success?
      {
        assert w[i] == sorted[offset + i];
      }
    }
    var read := ReadEntries(w, codec);
    if read.Failure? {
      return Failure(read.error), ordered;
    }
    var cards := read.value;
    var total := if cards == [] then 0 else |sorted|;
    r := Success(Page(cards, total));
    WindowOfOrderedCards(order, ordered, w, cards, limit, offset, codec);
    forall i | 0 <= i < |cards|
      ensures cards[i].id in ListedIds(s, title, tags, matches)
      ensures tags == [] || HasAllTags(cards[i].tags, tags)
    {
      assert ReadRow(w[i], codec) == Success(cards[i]);
      assert w[i] == ordered[offset + i];
    }
  }

  /** Sorting keeps the rows and their multiplicities, so the sorted sequence still lists them. */
  lemma SortedStillLists(es: seq<Entry>, sorted: seq<Entry>, rows: map<int, Row>, ids: set<int>)
    requires Lists(es, rows, ids)
    requires multiset(sorted) == multiset(es)
    ensures Lists(sorted, rows, ids)
    ensures |sorted| == |es|
  {
    assert |sorted| == |multiset(sorted)| == |multiset(es)| == |es|;
    forall i | 0 <= i < |sorted|
      ensures sorted[i].id in ids && sorted[i].id in rows && sorted[i].row == rows[sorted[i].id]
    {
      assert sorted[i] in multiset(es);
    }
    forall id | id in ids
      ensures exists i :: 0 <= i < |sorted| && sorted[i].id == id
    {
      var k :| 0 <= k < |es| && es[k].id == id;
      assert es[k] in multiset(sorted);
      var i :| 0 <= i < |sorted| && sorted[i] == es[k];
    }
    forall i, j | 0 <= i < j < |sorted|
      ensures sorted[i].id != sorted[j].id
    {
      if sorted[i].id == sorted[j].id {
        // same id, same row: the entry would occur twice in `sorted` but once in `es`
        DistinctOnce(es, sorted[i]);
        MultiplicityOfTwo(sorted, i, j);
        assert false;
      }
    }
  }

  lemma MultiplicityOfTwo(xs: seq<Entry>, i: int, j: int)
    requires 0 <= i < j < |xs| && xs[i] == xs[j]
    ensures multiset(xs)[xs[i]] >= 2
  {
    assert xs == xs[..j] + [xs[j]] + xs[j + 1..];
    assert xs[i] in multiset(xs[..j]) by {
      assert xs[..j][i] == xs[i];
    }
  }

  lemma {:induction false} DistinctOnce(xs: seq<Entry>, x: Entry)
    requires forall i, j :: 0 <= i < j < |xs| ==> xs[i].id != xs[j].id
    ensures multiset(xs)[x] <= 1
  {
    if xs != [] {
      var tail := xs[1..];
      assert xs == [xs[0]] + tail;
      DistinctOnce(tail, x);
      if xs[0] == x {
        assert x !in tail;
      }
    }
  }

  /** The cards scanned from a window of ordered rows are in the same order. */
  lemma WindowOfOrderedCards(order: SortOrder, ordered: seq<Entry>, w: seq<Entry>, cards: seq<Card>,
                             limit: nat, offset: nat, codec: Codec)
    requires InOrder(order, ordered)
    requires w == Window(ordered, limit, offset)
    requires |cards| == |w| && forall i :: 0 <= i < |w| ==> ReadRow(w[i], codec) == Success(cards[i])
    ensures CardsInOrder(order, cards)
  {
  }
}

=== FILE: ordering.dfy ===
/**
 * The ORDER BY of `GetAll`: a column from the sort safe list, a direction,
 * then `created_at DESC` to break ties.
 */
module Ordering {

  /** The sortable columns: `id`, `title`, `created_at`, `next_review_date`. */
  datatype Column = ById | ByTitle | ByCreatedAt | ByNextReviewDate

  datatype Direction = Asc | Desc

  datatype SortOrder = SortOrder(column: Column, direction: Direction)

  /** The columns a row is ordered by. */
  datatype SortKey = SortKey(id: int, title: string, createdAt: int, nextReviewDate: int)

  /** Three-way comparison: negative, zero or positive. */
  function CompareInts(a: int, b: int): int {
    if a < b then -1 else if a == b then 0 else 1
  }

  /** Code-point lexicographic comparison of two strings. */
  function CompareStrings(a: string, b: string): int {
    if a == [] && b == [] then 0
    else if a == [] then -1
    else if b == [] then 1
    else if a[0] < b[0] then -1
    else if a[0] > b[0] then 1
    else CompareStrings(a[1..], b[1..])
  }

  lemma {:induction false} CompareStringsAntisymmetric(a: string, b: string)
    ensures CompareStrings(a, b) == -CompareStrings(b, a)
    decreases |a|
  {
    if a != [] && b != [] && a[0] == b[0] {
      CompareStringsAntisymmetric(a[1..], b[1..]);
    }
  }

  lemma {:induction false} CompareStringsTransitive(a: string, b: string, c: string)
    requires CompareStrings(a, b) <= 0 && CompareStrings(b, c) <= 0
    ensures CompareStrings(a, c) <= 0
    decreases |a|
  {
    if a != [] && b != [] && c != [] && a[0] == b[0] && b[0] == c[0] {
      CompareStringsTransitive(a[1..], b[1..], c[1..]);
    }
  }

  /** Comparison on the chosen column alone, in the chosen direction. */
  function ComparePrimary(order: SortOrder, a: SortKey, b: SortKey): int {
    var c := match order.column
      case ById => CompareInts(a.id, b.id)
      case ByTitle => CompareStrings(a.title, b.title)
      case ByCreatedAt => CompareInts(a.createdAt, b.createdAt)
      case ByNextReviewDate => CompareInts(a.nextReviewDate, b.nextReviewDate);
    if order.direction == Asc then c else -c
  }

  /** `ORDER BY <column> <direction>, created_at DESC`. */
  function CompareKeys(order: SortOrder, a: SortKey, b: SortKey): int {
    var p := ComparePrimary(order, a, b);
    if p != 0 then p else CompareInts(b.createdAt, a.createdAt)
  }

  lemma ComparePrimaryAntisymmetric(order: SortOrder, a: SortKey, b: SortKey)
    ensures ComparePrimary(order, a, b) == -ComparePrimary(order, b, a)
  {
    CompareStringsAntisymmetric(a.title, b.title);
  }

  lemma ComparePrimaryTransitive(order: SortOrder, a: SortKey, b: SortKey, c: SortKey)
    requires ComparePrimary(order, a, b) <= 0 && ComparePrimary(order, b, c) <= 0
    ensures ComparePrimary(order, a, c) <= 0
  {
    if order.column == ByTitle {
      if order.direction == Asc {
        CompareStringsTransitive(a.title, b.title, c.title);
      } else {
        CompareStringsAntisymmetric(a.title, b.title);
        CompareStringsAntisymmetric(b.title, c.title);
        CompareStringsAntisymmetric(a.title, c.title);
        CompareStringsTransitive(c.title, b.title, a.title);
      }
    }
  }

  /** The ordering is total: swapping the arguments flips the sign. */
  lemma CompareKeysAntisymmetric(order: SortOrder, a: SortKey, b: SortKey)
    ensures CompareKeys(order, a, b) == -CompareKeys(order, b, a)
  {
    ComparePrimaryAntisymmetric(order, a, b);
  }

  /** The ordering is transitive, so sorting by it is well defined. */
  lemma CompareKeysTransitive(order: SortOrder, a: SortKey, b: SortKey, c: SortKey)
    requires CompareKeys(order, a, b) <= 0 && CompareKeys(order, b, c) <= 0
    ensures CompareKeys(order, a, c) <= 0
  {
    ComparePrimaryAntisymmetric(order, a, b);
    ComparePrimaryAntisymmetric(order, b, c);
    ComparePrimaryAntisymmetric(order, a, c);
    var pab, pbc := ComparePrimary(order, a, b), ComparePrimary(order, b, c);
    ComparePrimaryTransitive(order, a, b, c);
    if ComparePrimary(order, a, c) == 0 {
      // a and c tie on the column, so b ties with both
      ComparePrimaryTransitive(order, c, a, b);
      ComparePrimaryTransitive(order, b, c, a);
      assert pab == 0 && pbc == 0;
    }
  }
}

=== FILE: schedule.dfy ===
/**
 * The review ladder of `updateCardHandler`: a card's next review moves to
 * 3, 7, 14, 30 or 90 days after its creation, chosen from the whole days
 * that separate its current review date from its creation.
 */
module Schedule {
  import opened Cards

  const Tomorrow := 1
  const ThreeDays := 3
  const OneWeek := 7
  const TwoWeeks := 14
  const OneMonth := 30
  const ThreeMonths := 90

  /** The ladder of review intervals, in days after creation. */
  const Ladder: seq<int> := [Tomorrow, ThreeDays, OneWeek, TwoWeeks, OneMonth, ThreeMonths]

  const Hour: int := 3_600_000_000_000
  const Day: int := 24 * Hour

  /** The range of a Go `time.Duration` (an int64 count of nanoseconds). */
  const MinDuration: int := -0x8000_0000_0000_0000
  const MaxDuration: int := 0x7fff_ffff_ffff_ffff

  /** `calculateReviewDate(from, days)`, which is not part of this model. */
  type ReviewDateFn = (Date, int) -> Date

  /** `t.Sub(u)`: the elapsed time, saturated to the range of a Duration. */
  function Sub(t: Date, u: Date): (d: int)
    ensures MinDuration <= d <= MaxDuration
    ensures MinDuration <= t - u <= MaxDuration ==> d == t - u
    ensures t - u > MaxDuration ==> d == MaxDuration
    ensures t - u < MinDuration ==> d == MinDuration
  {
    if t - u > MaxDuration then MaxDuration
    else if t - u < MinDuration then MinDuration
    else t - u
  }

  /** `int(d.Hours() / 24)`: whole days in a duration, truncated toward zero. */
  function WholeDays(d: int): (n: int)
    ensures d >= 0 ==> 0 <= n && n * Day <= d < (n + 1) * Day
    ensures d < 0 ==> n <= 0 && (n - 1) * Day < d <= n * Day
  {
    if d >= 0 then d / Day else -((-d) / Day)
  }

  /** The `switch` on the day difference. */
  function NextInterval(days: int): (next: int)
    ensures next in Ladder[1..]
    ensures next == ThreeMonths <==> days !in Ladder[..4]
  {
    assert Ladder[..4] == [Tomorrow, ThreeDays, OneWeek, TwoWeeks];
    assert Ladder[1..] == [ThreeDays, OneWeek, TwoWeeks, OneMonth, ThreeMonths];
    if days == Tomorrow then ThreeDays
    else if days == ThreeDays then OneWeek
    else if days == OneWeek then TwoWeeks
    else if days == TwoWeeks then OneMonth
    else ThreeMonths
  }

  /**
   * Reference reading of the ladder: the rung after `days` when `days` is a
   * rung below the top, the top rung otherwise.
   */
  function Successor(ladder: seq<int>, days: int): int
    requires |ladder| > 0
    decreases |ladder|
  {
    if |ladder| == 1 then ladder[0]
    else if ladder[0] == days then ladder[1]
    else Successor(ladder[1..], days)
  }

  /** The `switch` climbs exactly the ladder, and the top rung is a fixed point. */
  lemma NextIntervalFollowsLadder(days: int)
    ensures NextInterval(days) == Successor(Ladder, days)
    ensures forall i :: 0 <= i < |Ladder| - 1 ==> NextInterval(Ladder[i]) == Ladder[i + 1]
    ensures NextInterval(ThreeMonths) == ThreeMonths
  {
    var l1, l2, l3, l4 := Ladder[1..], Ladder[2..], Ladder[3..], Ladder[4..];
    assert l1[1..] == l2 && l2[1..] == l3 && l3[1..] == l4 && l4[1..] == [ThreeMonths];
    assert Successor(l4, days) == ThreeMonths;
    assert Successor(l3, days) == if days == TwoWeeks then OneMonth else Successor(l4, days);
    assert Successor(l2, days) == if days == OneWeek then TwoWeeks else Successor(l3, days);
    assert Successor(l1, days) == if days == ThreeDays then OneWeek else Successor(l2, days);
  }

  /** The new review date: `calculateReviewDate(CreatedAt, days)` for the next rung. */
  function Reschedule(createdAt: Date, nextReview: Date, reviewDate: ReviewDateFn): (r: Date)
    ensures r in set k | k in Ladder[1..] :: reviewDate(createdAt, k)
  {
    reviewDate(createdAt, NextInterval(WholeDays(Sub(nextReview, createdAt))))
  }

  /** A review date between rung i and rung i plus one day moves to rung i + 1. */
  lemma RescheduleClimbs(createdAt: Date, nextReview: Date, reviewDate: ReviewDateFn, i: nat)
    requires i < 4
    requires Ladder[i] * Day <= nextReview - createdAt < (Ladder[i] + 1) * Day
    ensures Reschedule(createdAt, nextReview, reviewDate) == reviewDate(createdAt, Ladder[i + 1])
  {
  }

  /** Less than a whole day after creation, or before it, the card jumps to the top rung. */
  lemma UnderADayJumpsToTop(createdAt: Date, nextReview: Date, reviewDate: ReviewDateFn)
    requires nextReview - createdAt < Day
    ensures Reschedule(createdAt, nextReview, reviewDate) == reviewDate(createdAt, ThreeMonths)
  {
  }

  /**
   * Truncating toward zero and flooring pick the same rung: they differ only
   * on negative durations, which never reach a rung.
   */
  lemma TruncationAgreesWithFloor(d: int)
    ensures NextInterval(WholeDays(d)) == NextInterval(d / Day)
  {
  }

  /** `t.Truncate(24 * time.Hour)`: the start of t's UTC day. */
  function TruncateToDay(t: Date): (r: Date)
    ensures r % Day == 0
    ensures r <= t < r + Day
  {
    t - t % Day
  }

  /** A `calculateReviewDate` that adds whole days. */
  ghost predicate AddsWholeDays(reviewDate: ReviewDateFn) {
    forall t, n {:trigger reviewDate(t, n)} :: reviewDate(t, n) == t + n * Day
  }

  /**
   * A card created on day D after midnight gets D + 1 as its first review
   * date, less than a day after its creation: its first reschedule skips
   * the 3, 7, 14 and 30 day rungs.
   */
  lemma FirstRescheduleJumpsToTop(now: Date, createdAt: Date, reviewDate: ReviewDateFn)
    requires AddsWholeDays(reviewDate)
    requires TruncateToDay(createdAt) == TruncateToDay(now)
    requires createdAt % Day != 0
    ensures Reschedule(createdAt, reviewDate(TruncateToDay(now), Tomorrow), reviewDate) == createdAt + ThreeMonths * Day
  {
  }

  /** A card created exactly at midnight is a whole day from its first review date, so it climbs to 3 days. */
  lemma MidnightCardClimbs(now: Date, createdAt: Date, reviewDate: ReviewDateFn)
    requires AddsWholeDays(reviewDate)
    requires createdAt == TruncateToDay(now)
    ensures Reschedule(createdAt, reviewDate(TruncateToDay(now), Tomorrow), reviewDate) == createdAt + ThreeDays * Day
  {
    RescheduleClimbs(createdAt, reviewDate(TruncateToDay(now), Tomorrow), reviewDate, 0);
  }

  /**
   * A card whose `created_at` falls in the day before the midnight the
   * handler's clock has passed is more than a day from its first review
   * date, and also climbs to 3 days.
   */
  lemma SkewedClocksClimb(now: Date, createdAt: Date, reviewDate: ReviewDateFn)
    requires AddsWholeDays(reviewDate)
    requires TruncateToDay(now) - Day < createdAt < TruncateToDay(now)
    ensures Reschedule(createdAt, reviewDate(TruncateToDay(now), Tomorrow), reviewDate) == createdAt + ThreeDays * Day
  {
    RescheduleClimbs(createdAt, reviewDate(TruncateToDay(now), Tomorrow), reviewDate, 0);
  }

  /** From a rung of 3, 7 or 14 days set by a previous reschedule, the next one climbs. */
  lemma LaterReschedulesClimb(createdAt: Date, reviewDate: ReviewDateFn, i: nat)
    requires AddsWholeDays(reviewDate)
    requires 1 <= i < 4
    ensures Reschedule(createdAt, reviewDate(createdAt, Ladder[i]), reviewDate) == createdAt + Ladder[i + 1] * Day
  {
  }
}

=== FILE: snippet.dfy ===
/**
 * The `code_snippet` column. A snippet is a JSON object (Go's
 * `map[string]interface{}`); the table stores it as JSON text and
 * `CodeSnippet.Scan` turns that text back into a snippet.
 */
module Snippets {
  import opened Wrappers

  newtype byte = x: int | 0 <= x < 256

  /** A decoded JSON value, as `json.Unmarshal` into an `interface{}` produces it. */
  datatype Json =
    | JNull
    | JBool(b: bool)
    | JNumber(n: real)
    | JString(s: string)
    | JArray(items: seq<Json>)
    | JObject(fields: map<string, Json>)

  type Snippet = map<string, Json>

  /** The four bytes of the text `null`. */
  const NullText: seq<byte> := [0x6e, 0x75, 0x6c, 0x6c]

  /**
   * What the driver hands to `Scan`: a `[]byte`, or a value of any other
   * dynamic type (an untyped nil included).
   */
  datatype ScanSource = Bytes(data: seq<byte>) | NotBytes

  /** The three ways `Scan` fails. */
  datatype ScanError =
    | AssertBytesFailed           // the source is not a []byte
    | DecodeFailed(reason: string) // json.Unmarshal rejected the text
    | AssertObjectFailed          // the text is JSON, but not an object

  /** `json.Unmarshal` into an `interface{}`, left abstract. */
  type Decoder = seq<byte> -> Result<Json, string>

  /**
   * `CodeSnippet.Scan`: the text `null` clears the snippet; anything else
   * must be bytes holding a JSON object. `Success(None)` is the nil snippet.
   */
  function Scan(src: ScanSource, decode: Decoder): (r: Result<Option<Snippet>, ScanError>)
    ensures r == Success(None) <==> src == Bytes(NullText)
    ensures src.NotBytes? ==> r == Failure(AssertBytesFailed)
    ensures src.Bytes? && src.data != NullText ==>
      match decode(src.data)
      case Failure(reason) => r == Failure(DecodeFailed(reason))
      case Success(JObject(fields)) => r == Success(Some(fields))
      case Success(_) => r == Failure(AssertObjectFailed)
    ensures r.Success? && r.value.Some? ==> src.Bytes? && decode(src.data) == Success(JObject(r.value.value))
  {
    match src
    case NotBytes =>
      // the failed assertion leaves a nil slice, whose text "" is not "null"
      Failure(AssertBytesFailed)
    case Bytes(data) =>
      if data == NullText then Success(None)
      else
        match decode(data)
        case Failure(reason) => Failure(DecodeFailed(reason))
        case Success(JObject(fields)) => Success(Some(fields))
        case Success(_) => Failure(AssertObjectFailed)
  }

  /** The column as stored: SQL NULL, or the JSON text of the snippet. */
  datatype Cell = SqlNull | JsonText(text: seq<byte>)

  /** `CodeSnippet.Value` (json.Marshal) and json.Unmarshal, both abstract. */
  datatype Codec = Codec(encode: Snippet -> seq<byte>, decode: Decoder)

  /**
   * The codec carries this snippet through unchanged: its JSON text is not
   * `null` (Marshal of a map never is) and decodes back to the same object.
   * The nil snippet needs nothing of the codec.
   */
  predicate RoundTrips(codec: Codec, snippet: Option<Snippet>) {
    snippet.Some? ==>
      && codec.encode(snippet.value) != NullText
      && codec.decode(codec.encode(snippet.value)) == Success(JObject(snippet.value))
  }

  /** Writing a `*CodeSnippet` argument: a nil pointer is stored as NULL. */
  function Write(snippet: Option<Snippet>, codec: Codec): Cell {
    match snippet
    case None => SqlNull
    case Some(s) => JsonText(codec.encode(s))
  }

  /**
   * Scanning the column into a `*CodeSnippet`: database/sql sets the pointer
   * to nil for NULL without calling `Scan`, and calls `Scan` on the bytes otherwise.
   */
  function Read(cell: Cell, codec: Codec): Result<Option<Snippet>, ScanError> {
    match cell
    case SqlNull => Success(None)
    case JsonText(text) => Scan(Bytes(text), codec.decode)
  }

  /**
   * A snippet written and read back is the same snippet exactly when the
   * codec carries it through; a nil snippet always comes back nil.
   */
  lemma ReadAfterWrite(snippet: Option<Snippet>, codec: Codec)
    ensures Read(Write(snippet, codec), codec) == Success(snippet) <==> RoundTrips(codec, snippet)
    ensures snippet.None? ==> Read(Write(snippet, codec), codec) == Success(None)
  {
  }
}

=== FILE: store.dfy ===
/**
 * `CardModel`: the `cards` table as a map from id to row, and the queries
 * the model runs against it. Each query takes `failure`, the error the
 * database reports for that statement (a lost connection, a violated
 * constraint), or None when the statement runs.
 */
module CardStore {
  import opened Wrappers
  import opened Cards
  import opened Snippets

  /** What a query returns instead of a result. */
  datatype DbError =
    | ErrRecordNotFound          // no row with the requested id
    | StorageError(reason: string) // any error the database itself reports
    | ScanFailed(cause: ScanError) // a code_snippet column that does not scan

  /** One row of the table; its `id` is the key the store maps to it. */
  datatype Row = Row(
    createdAt: Date,
    title: string,
    content: string,
    tags: TagSlice,
    nextReviewDate: Date,
    snippet: Cell,
    description: Option<string>)

  datatype Entry = Entry(id: int, row: Row)

  /** The table and the next value of its bigserial id sequence. */
  datatype Store = Store(rows: map<int, Row>, nextId: int)

  /** Ids are positive and below the next value the sequence hands out. */
  ghost predicate Valid(s: Store) {
    && s.nextId >= 1
    && forall id :: id in s.rows ==> 1 <= id < s.nextId
  }

  /**
   * Scanning one row into a `Card`: a NULL description becomes the empty
   * string, and the snippet goes through `CodeSnippet.Scan`.
   */
  function ReadRow(e: Entry, codec: Codec): (r: Result<Card, DbError>)
    ensures r.Success? <==> Read(e.row.snippet, codec).Success?
    ensures r.Failure? ==> r.error == ScanFailed(Read(e.row.snippet, codec).error)
    ensures r.Success? ==>
      && r.value.id == e.id
      && r.value.createdAt == e.row.createdAt
      && r.value.title == e.row.title
      && r.value.content == e.row.content
      && r.value.tags == e.row.tags
      && r.value.nextReviewDate == e.row.nextReviewDate
      && r.value.snippet == Read(e.row.snippet, codec).value
    ensures r.Success? && e.row.description.Some? ==> r.value.description == e.row.description.value
    ensures r.Success? && e.row.description.None? ==> r.value.description == ""
  {
    match Read(e.row.snippet, codec)
    case Failure(cause) => Failure(ScanFailed(cause))
    case Success(snippet) =>
      var description := if e.row.description.Some? then e.row.description.value else "";
      Success(Card(e.id, e.row.createdAt, e.row.title, e.row.tags, e.row.content,
                   e.row.nextReviewDate, snippet, description))
  }

  /** Row `k` is the first of `es` that does not scan. */
  predicate FirstFailure(es: seq<Entry>, codec: Codec, k: int)
    requires 0 <= k < |es|
  {
    && ReadRow(es[k], codec).Failure?
    && forall j :: 0 <= j < k ==> ReadRow(es[j], codec).Success?
  }

  /** Scanning rows in order; the first row that does not scan aborts the query. */
  function ReadEntries(es: seq<Entry>, codec: Codec): (r: Result<seq<Card>, DbError>)
    ensures r.Success? <==> forall i :: 0 <= i < |es| ==> ReadRow(es[i], codec).Success?
    ensures r.Success? ==> |r.value| == |es|
    ensures r.Success? ==> forall i :: 0 <= i < |es| ==> ReadRow(es[i], codec) == Success(r.value[i])
    ensures r.Failure? ==> r.error.ScanFailed?
    ensures r.Failure? ==> exists k :: 0 <= k < |es| && FirstFailure(es, codec, k) && ReadRow(es[k], codec) == Failure(r.error)
  {
    if es == [] then Success([])
    else
      match ReadRow(es[0], codec)
      case Failure(e) => Failure(e)
      case Success(card) =>
        match ReadEntries(es[1..], codec)
        case Failure(e) => Failure(e)
        case Success(cards) =>
          assert forall i :: 1 <= i < |es| ==> es[i] == es[1..][i - 1];
          Success([card] + cards)
  }

  /** The row `INSERT` writes: every column but id and created_at comes from the card. */
  function RowOf(card: Card, createdAt: Date, codec: Codec): Row {
    Row(createdAt, card.title, card.content, card.tags, card.nextReviewDate,
        Write(card.snippet, codec), Some(card.description))
  }

  datatype Inserted = Inserted(store: Store, id: int, createdAt: Date)

  /**
   * `Insert`: the table assigns the next id of its sequence and `now()` as
   * created_at; the card's own id and created_at are not written.
   */
  function Insert(s: Store, card: Card, now: Date, codec: Codec, failure: Option<string>): (r: Result<Inserted, DbError>)
    requires Valid(s)
    ensures r.Failure? <==> failure.Some?
    ensures r.Failure? ==> r.error == StorageError(failure.value)
    ensures r.Success? ==>
      && Valid(r.value.store)
      && r.value.id >= 1
      && r.value.id !in s.rows
      && r.value.createdAt == now
      && r.value.store.rows.Keys == s.rows.Keys + {r.value.id}
      && (forall id :: id in s.rows ==> r.value.store.rows[id] == s.rows[id])
      && r.value.store.rows[r.value.id] == RowOf(card, now, codec)
  {
    if failure.Some? then Failure(StorageError(failure.value))
    else
      var id := s.nextId;
      Success(Inserted(Store(s.rows[id := RowOf(card, now, codec)], id + 1), id, now))
  }

  /** `Get`: the card with that id, or `ErrRecordNotFound` when there is none. */
  function Get(s: Store, id: int, codec: Codec, failure: Option<string>): (r: Result<Card, DbError>)
    ensures r == Failure(ErrRecordNotFound) <==> failure.None? && id !in s.rows
    ensures failure.Some? ==> r == Failure(StorageError(failure.value))
    ensures failure.None? && id in s.rows ==> r == ReadRow(Entry(id, s.rows[id]), codec)
    ensures r.Success? ==> r.value.id == id && id in s.rows
  {
    if failure.Some? then Failure(StorageError(failure.value))
    else if id !in s.rows then Failure(ErrRecordNotFound)
    else ReadRow(Entry(id, s.rows[id]), codec)
  }

  /**
   * `Update`: overwrites title, content, tags, code_snippet,
   * next_review_date and description of the row with the card's id.
   */
  function Update(s: Store, card: Card, codec: Codec, failure: Option<string>): (r: Result<Store, DbError>)
    ensures r == Failure(ErrRecordNotFound) <==> failure.None? && card.id !in s.rows
    ensures failure.Some? ==> r == Failure(StorageError(failure.value))
    ensures r.Success? <==> failure.None? && card.id in s.rows
    ensures r.Success? ==>
      && r.value.nextId == s.nextId
      && r.value.rows.Keys == s.rows.Keys
      && (forall id :: id in s.rows && id != card.id ==> r.value.rows[id] == s.rows[id])
      && r.value.rows[card.id] == RowOf(card, s.rows[card.id].createdAt, codec)
    ensures r.Success? && Valid(s) ==> Valid(r.value)
  {
    if failure.Some? then Failure(StorageError(failure.value))
    else if card.id !in s.rows then Failure(ErrRecordNotFound)
    else Success(s.(rows := s.rows[card.id := RowOf(card, s.rows[card.id].createdAt, codec)]))
  }

  /** `Delete`: an id below 1 is not found without a query; otherwise removes the row. */
  function Delete(s: Store, id: int, failure: Option<string>): (r: Result<Store, DbError>)
    ensures id < 1 ==> r == Failure(ErrRecordNotFound)
    ensures r == Failure(ErrRecordNotFound) <==> id < 1 || (failure.None? && id !in s.rows)
    ensures r.Success? <==> id >= 1 && failure.None? && id in s.rows
    ensures r.Failure? && r.error != ErrRecordNotFound ==> id >= 1 && r == Failure(StorageError(failure.value))
    ensures r.Success? ==>
      && r.value.nextId == s.nextId
      && r.value.rows.Keys == s.rows.Keys - {id}
      && (forall k :: k in r.value.rows ==> r.value.rows[k] == s.rows[k])
    ensures r.Success? && Valid(s) ==> Valid(r.value)
  {
    if id < 1 then Failure(ErrRecordNotFound)
    else if failure.Some? then Failure(StorageError(failure.value))
    else if id !in s.rows then Failure(ErrRecordNotFound)
    else Success(s.(rows := s.rows - {id}))
  }

  /** A card inserted and fetched back by its new id comes back as written. */
  lemma GetAfterInsert(s: Store, card: Card, now: Date, codec: Codec)
    requires Valid(s)
    requires RoundTrips(codec, card.snippet)
    ensures Insert(s, card, now, codec, None).Success?
    ensures var ins := Insert(s, card, now, codec, None).value;
      Get(ins.store, ins.id, codec, None) == Success(card.(id := ins.id, createdAt := now))
  {
  }

  /**
   * A card updated and fetched back comes back as written, with the
   * created_at the row already had.
   */
  lemma GetAfterUpdate(s: Store, card: Card, codec: Codec)
    requires RoundTrips(codec, card.snippet)
    requires card.id in s.rows
    ensures Update(s, card, codec, None).Success?
    ensures Get(Update(s, card, codec, None).value, card.id, codec, None)
         == Success(card.(createdAt := s.rows[card.id].createdAt))
  {
  }

  /** Deleting a card just inserted gives back the rows there were before. */
  lemma DeleteUndoesInsert(s: Store, card: Card, now: Date, codec: Codec)
    requires Valid(s)
    ensures Insert(s, card, now, codec, None).Success?
    ensures var ins := Insert(s, card, now, codec, None).value;
      Delete(ins.store, ins.id, None).Success? && Delete(ins.store, ins.id, None).value.rows == s.rows
  {
  }

  lemma HasMember(ids: set<int>)
    requires ids != {}
    ensures exists id :: id in ids
  {
    if forall id :: id !in ids {
      assert false;
    }
  }

  /** The ids among `ids` whose rows `keep` selects. */
  function Kept(rows: map<int, Row>, ids: set<int>, keep: Entry -> bool): set<int>
    requires ids <= rows.Keys
  {
    set id | id in ids && keep(Entry(id, rows[id]))
  }

  lemma KeptStep(rows: map<int, Row>, ids: set<int>, id: int, keep: Entry -> bool)
    requires ids <= rows.Keys && id in rows && id !in ids
    ensures id !in Kept(rows, ids, keep)
    ensures Kept(rows, ids + {id}, keep) ==
      if keep(Entry(id, rows[id])) then Kept(rows, ids, keep) + {id} else Kept(rows, ids, keep)
  {
  }

  /** `es` lists the rows of `ids`, each exactly once. */
  ghost predicate Lists(es: seq<Entry>, rows: map<int, Row>, ids: set<int>) {
    && (forall i :: 0 <= i < |es| ==> es[i].id in ids && es[i].id in rows && es[i].row == rows[es[i].id])
    && (forall id :: id in ids ==> exists i :: 0 <= i < |es| && es[i].id == id)
    && (forall i, j :: 0 <= i < j < |es| ==> es[i].id != es[j].id)
  }

  lemma ListsAppend(es: seq<Entry>, rows: map<int, Row>, ids: set<int>, id: int)
    requires Lists(es, rows, ids)
    requires id in rows && id !in ids
    ensures Lists(es + [Entry(id, rows[id])], rows, ids + {id})
  {
    var es' := es + [Entry(id, rows[id])];
    forall k | k in ids + {id}
      ensures exists i :: 0 <= i < |es'| && es'[i].id == k
    {
      if k == id {
        assert es'[|es|].id == k;
      } else {
        var i :| 0 <= i < |es| && es[i].id == k;
        assert es'[i] == es[i];
      }
    }
  }

  /**
   * Collects the rows `keep` selects, in an unspecified order, as a
   * `WHERE` clause without `ORDER BY` does.
   */
  method Collect(rows: map<int, Row>, keep: Entry -> bool) returns (es: seq<Entry>)
    ensures Lists(es, rows, Kept(rows, rows.Keys, keep))
    ensures |es| == |Kept(rows, rows.Keys, keep)|
  {
    es := [];
    var todo := rows.Keys;
    ghost var done: set<int> := {};
    while todo != {}
      invariant todo + done == rows.Keys && todo !! done
      invariant Lists(es, rows, Kept(rows, done, keep))
      invariant |es| == |Kept(rows, done, keep)|
      decreases |todo|
    {
      HasMember(todo);
      var id :| id in todo;
      KeptStep(rows, done, id, keep);
      if keep(Entry(id, rows[id])) {
        ListsAppend(es, rows, Kept(rows, done, keep), id);
        es := es + [Entry(id, rows[id])];
      }
      todo := todo - {id};
      done := done + {id};
    }
  }

  /**
   * The ids of the cards whose review date is at or before `today`, the
   * instant `CURRENT_DATE` stands for: midnight at the start of the current
   * date. A review date later in the current day is not yet due.
   */
  function DueIds(s: Store, today: Date): set<int> {
    set id | id in s.rows && s.rows[id].nextReviewDate <= today
  }

  /**
   * `GetReviewCards`: every card whose `next_review_date <= CURRENT_DATE`,
   * each once, in no particular order.
   */
  method GetReviewCards(s: Store, today: Date, codec: Codec, failure: Option<string>) returns (r: Result<seq<Card>, DbError>)
    ensures failure.Some? ==> r == Failure(StorageError(failure.value))
    ensures r.Failure? && failure.None? ==> r.error.ScanFailed?
    ensures r.Failure? && failure.None? ==>
      exists id :: id in DueIds(s, today) && ReadRow(Entry(id, s.rows[id]), codec) == Failure(r.error)
    ensures r.Success? ==> forall i :: 0 <= i < |r.value| ==>
      var c := r.value[i];
      c.id in DueIds(s, today) && ReadRow(Entry(c.id, s.rows[c.id]), codec) == Success(c)
    ensures r.Success? ==> forall id :: id in DueIds(s, today) ==>
      exists i :: 0 <= i < |r.value| && r.value[i].id == id
    ensures r.Success? ==> |r.value| == |DueIds(s, today)|
    ensures r.Success? ==> forall i, j :: 0 <= i < j < |r.value| ==> r.value[i].id != r.value[j].id
    ensures failure.None? && (forall id :: id in DueIds(s, today) ==> ReadRow(Entry(id, s.rows[id]), codec).Success?) ==>
      r.Success?
  {
    if failure.Some? {
      return Failure(StorageError(failure.value));
    }
    var due := (e: Entry) => e.row.nextReviewDate <= today;
    var es := Collect(s.rows, due);
    assert (set id | id in s.rows && due(Entry(id, s.rows[id]))) == DueIds(s, today);
    r := ReadEntries(es, codec);
    if r.Failure? {
      var k :| 0 <= k < |es| && FirstFailure(es, codec, k) && ReadRow(es[k], codec) == Failure(r.error);
      assert es[k] == Entry(es[k].id, s.rows[es[k].id]);
    }
    if r.Success? {
      forall i | 0 <= i < |r.value|
        ensures r.value[i].id == es[i].id
      {
        assert ReadRow(es[i], codec) == Success(r.value[i]);
      }
    }
  }

  /**
   * `GetRandomCard`: some card of the table (`ORDER BY RANDOM() LIMIT 1`),
   * or `ErrRecordNotFound` when the table is empty.
   */
  method GetRandomCard(s: Store, codec: Codec, failure: Option<string>) returns (r: Result<Card, DbError>)
    ensures failure.Some? ==> r == Failure(StorageError(failure.value))
    ensures r == Failure(ErrRecordNotFound) <==> failure.None? && s.rows == map[]
    ensures r.Success? ==> r.value.id in s.rows && ReadRow(Entry(r.value.id, s.rows[r.value.id]), codec) == r
    ensures r.Failure? && failure.None? && s.rows != map[] ==> r.error.ScanFailed?
    ensures failure.None? && s.rows != map[] ==> exists id :: id in s.rows && r == ReadRow(Entry(id, s.rows[id]), codec)
  {
    if failure.Some? {
      return Failure(StorageError(failure.value));
    }
    if s.rows == map[] {
      return Failure(ErrRecordNotFound);
    }
    HasMember(s.rows.Keys);
    var id :| id in s.rows;
    r := ReadRow(Entry(id, s.rows[id]), codec);
  }
}

=== FILE: wrappers.dfy ===
/** Option and Result, the failure-carrying values the rest of the model returns. */
module Wrappers {

  /** A value that may be absent: a nil pointer or a missing JSON field. */
  datatype Option<+T> = None | Some(value: T) {

    /** The value, or `default` when absent. */
    function GetOr(default: T): T {
      if Some? then value else default
    }
  }

  /** Either a value or the error a Go function returned beside it. */
  datatype Result<+T, +E> = Success(value: T) | Failure(error: E)
}
